=== FILE: README.md ===
# Scene and view manager model

A Dafny model of the state-keeping core of a small OpenGL scene
application's two managers:

- **SceneManager** (`textures.dfy`, `materials.dfy`, `scene_push.dfy`):
  - a fixed-capacity texture table of (tag, GL texture name) pairs, covering registration, binding, release and first-match lookup;
  - a material table that is rebuilt from a fixed twelve-entry catalog and searched by tag;
  - the per-draw uniform pushes: color, texture, UV scale, material and model transform.
- **ViewManager** (`view_manager.dfy`): the process-wide input and timing globals, stepped by three entry points:
  - the cursor callback;
  - the keyboard poll, which handles escape, six movement keys and the P/O projection keys;
  - the per-frame view preparation, which covers frame timing, the choice of projection and the view uploads.

`basics.dfy` holds the shared value types and the first-match scan. `shader.dfy` holds the uniform-upload vocabulary.

Every operation is a pure function of the state it reads. It returns whichever of the following the operation produces: the new state, the calls it makes (OpenGL calls, uniform uploads or camera calls, in order), and the console lines it prints. For example, `SetShaderColor` returns only its uploads, and `MousePositionCallback` returns the new state and one camera call. The model never runs the graphics calls it records. The value a uniform holds after a push is the last value written under its name (`Shader.LastWrite`). The texture table is the sequence of occupied slots, and its length is the loaded-texture count. The type bounds that length by the capacity, 16.

Where the code differs from a plain reading of its comments, the model follows the code:

- **P and O are not a toggle.** P always selects perspective and O always selects orthographic. When both press edges arrive in one poll, O wins.
- **`FindMaterial` returns true for any non-empty table, even when no tag matches.** As a result, the "not found" warning in `SetShaderMaterial` cannot be reached. On a miss, `SetShaderMaterial` pushes the contents of a local it never initialised; the model makes that local a parameter.

A worked example of the transform composition: with scale (2, 1, 1), a quarter turn about Y and translation (1, 0, 0), the local point (1, 0, 0) lands at (1, 0, -2). The rotation is right-handed, as GLM's is (`ScenePush.QuarterTurnAboutY`).

## Model

| member | source | states |
|---|---|---|
| Basics.AsSignedInt | SceneManager.cpp:190-198 | Assigning a 32-bit texture name to the `int` result gives a value in the signed 32-bit range, congruent to the name modulo 2^32. The result is -1 exactly for the name 0xFFFFFFFF. |
| Basics.FirstMatch | SceneManager.cpp:217-235 | The flagged scan gives -1 exactly when no element matches. Otherwise it gives an index whose element matches and before which none does. |
| Textures.SlotOf | SceneManager.cpp:217-235 | The slot of a tag is in [-1, count). It is -1 iff no occupied slot carries the tag. Otherwise it is the first slot that does. |
| Textures.CreateGLTexture | SceneManager.cpp:68-146 | Registration succeeds iff the image decoded, has 3 or 4 channels, and the table holds fewer than 16 entries. Success appends (tag, name) at index old-count and keeps the earlier entries. Failure leaves the table unchanged. A name is generated iff the image decoded. It is deleted iff the image has 3 or 4 channels and the table was full. An image with another channel count returns before the capacity check, so nothing is deleted even when the table is full. The upload uses RGB8 for 3 channels and RGBA8 for 4. A successful upload generates mipmaps and ends by unbinding. A decode failure makes no GL call and prints one line. An unsupported channel count prints that count. A full table prints the table-full line, and that line appears only when the table is full. The only name ever deleted is the generated one. Every decoded image gets Repeat wrapping on S and T and Linear min and mag filtering, and no other parameter value is set. |
| Textures.CreateLeaksIffUnsupportedChannels | SceneManager.cpp:87-113 | The freshly generated name ends up neither stored nor deleted exactly when the image has a channel count other than 3 or 4. |
| Textures.CreateKeepsSlots | SceneManager.cpp:123-139 | A successful registration keeps every registered tag at its slot. The new tag resolves to slot old-count. Every other unregistered tag still resolves to -1. |
| Textures.BindGLTextures | SceneManager.cpp:154-162 | For each occupied slot i, in order, texture unit i is activated and slot i's name is bound to it. The binding makes two calls per slot and no others. |
| Textures.DeleteCalls | SceneManager.cpp:170-177 | Releasing makes exactly one delete per occupied slot, in slot order, each deleting that slot's name. |
| Textures.DestroyGLTextures | SceneManager.cpp:170-177 | The calls are exactly one delete per occupied slot, in slot order. Every call is a delete of a registered name. Every registered name is deleted. The table ends empty, so every lookup afterwards gives -1. |
| Textures.DestroyTwiceDeletesNothing | SceneManager.cpp:170-177 | A second release makes no call and leaves the table empty. |
| Textures.FindTextureSlot | SceneManager.cpp:217-235 | The scan returns the first slot below the count whose tag matches, or -1. The result agrees with `SlotOf` and lies below 16. |
| Textures.FindTextureID | SceneManager.cpp:188-206 | The lookup returns the first match's name read as a signed int, or -1 on a miss. A -1 result therefore means a miss or a name of 0xFFFFFFFF. |
| Materials.MaterialIndex | SceneManager.cpp:254-269 | Gives the index of the first material with the tag, or -1 iff none has it. |
| Materials.FindMaterial | SceneManager.cpp:247-272 | Returns false iff the table is empty, so it returns true on a miss. On a first match it copies diffuse, specular and shininess into the out-parameter. Otherwise the out-parameter is unchanged. The out-parameter's tag is never written. |
| Materials.FindMaterialCannotReportMiss | SceneManager.cpp:249-271 | On a non-empty table with no matching tag, the result is true with the out-parameter untouched, the same as a hit that copies nothing. |
| Materials.DefineObjectMaterials | SceneManager.cpp:438-535 | Whatever the table held, it ends with exactly 12 entries tagged plastic … windowFrame in catalog order. The tags are pairwise distinct. Colors lie in [0,1] and shininess is positive. |
| Materials.DefineObjectMaterialsIdempotent | SceneManager.cpp:438-535 | Defining the materials twice gives the same table as defining them once. |
| Materials.CatalogLookupIsExact | SceneManager.cpp:247-272 | After the catalog is defined, looking up any catalog tag returns true and copies exactly that entry's values. |
| ScenePush.SetShaderColor | SceneManager.cpp:334-353 | With a shader manager, texturing ends off and the color is the given RGBA. Only the texture flag and the color are written; the sampler never is. Without a shader manager nothing is uploaded. |
| ScenePush.SetShaderTexture | SceneManager.cpp:363-382 | The final texture flag is on iff the tag has a slot. The sampler is written iff the tag has a slot, and then with that slot index. The warning is printed iff the tag has no slot, and it is the only line printed. Only the texture flag and the sampler are written. Without a shader manager nothing happens. |
| ScenePush.SetShaderTextureAfterRegistration | SceneManager.cpp:123-129 | After a tag is registered, a texture push for it leaves texturing on with the sampler at the slot it was stored in. |
| ScenePush.SetTextureUVScale | SceneManager.cpp:393-399 | With a shader manager, only the UV scale uniform is written, with (u, v). Otherwise nothing is uploaded. |
| ScenePush.MaterialUniforms | SceneManager.cpp:420-422 | After the material push, the diffuse, specular and shininess uniforms hold the material's three values, and no other uniform is written. |
| ScenePush.SetShaderMaterial | SceneManager.cpp:409-430 | Nothing is printed, so the not-found warning never appears. Only the three material uniforms are written. An empty table pushes nothing. A non-empty table pushes the first match's values on a hit, and the uninitialised local's values on a miss. |
| ScenePush.SetShaderMaterialMissIsIndeterminate | SceneManager.cpp:412-423 | On a miss, two different uninitialised locals push different diffuse colors, so the values pushed are not determined by the table and the tag. |
| ScenePush.SetTransformations | SceneManager.cpp:288-321 | Only the model matrix is uploaded, and only with a shader manager. It is the product translate(position + offset) · Rz · Ry · Rx · scale. |
| ScenePush.ModelMatrixActsRightToLeft | SceneManager.cpp:305-314 | For quarter-turn angles, the model matrix maps a point by scaling, then rotating about X, then Y, then Z, then translating by position + offset. |
| ScenePush.ModelMatrixWithoutRotation | SceneManager.cpp:305-314 | With no rotation, the point is scaled and then moved by position + offset. |
| ScenePush.DefaultOffsetTranslatesToPosition | SceneManager.h:79-85 | Omitting the offset makes the translation exactly the position. |
| ScenePush.RotationOrderIsXThenY | SceneManager.cpp:305-314 | With 90° about X and about Y, the scaled point (a, b, c) goes to (b, -c, -a) before translation. This is the X-then-Y order. |
| ScenePush.QuarterTurnAboutY | SceneManager.cpp:305-314 | With 90° about Y, the scaled point (a, b, c) goes to (c, b, -a) before translation. |
| Shader.LastWrite | SceneManager.cpp:366-381 | A uniform is unset iff no upload names it. Otherwise it holds the value of the last upload that names it. |
| ViewManager.InitialView | ViewManager.cpp:21-62 | The last cursor position starts at the window centre (500, 400). The first-mouse flag is set, the view is perspective, and delta and last-frame are 0. Both key latches start clear. The camera starts at (0, 5, 12), facing (0, -0.5, -2) with up (0, 1, 0), zoom 80 and movement speed 20. The view manager holds a shader manager iff one was passed in. |
| ViewManager.MousePositionCallback | ViewManager.cpp:128-150 | The first event reports offsets (0, 0). Every later event reports (x - lastX, lastY - y). Afterwards the last position is (x, y), the first-mouse flag is clear, and nothing else changes. |
| ViewManager.MouseRun | ViewManager.cpp:128-150 | A run of cursor events makes one mouse-movement call per event. Afterwards the last position is the final event's, and the first-mouse flag is clear. The camera record is not written (the camera's reaction is opaque, see Left out), and the projection mode is untouched. |
| ViewManager.MouseOffsetsTelescope | ViewManager.cpp:133-149 | Over any run of cursor events, the reported offsets add up to the cursor's total travel. The travel is measured from the first event if it seeds the position, and from the recorded position otherwise. The first-mouse flag ends clear. |
| ViewManager.InitialCursorEventIsStill | ViewManager.cpp:31-33 | The first cursor event after start-up moves the camera by nothing, wherever the cursor is. |
| ViewManager.SecondCursorEvent | ViewManager.cpp:141-142 | After the seeding event, a move of 10 right and 5 up reports (+10, +5). |
| ViewManager.MovementCallsFrom | ViewManager.cpp:180-207 | Each held key polled from a given position on yields exactly one camera call, in polling order. |
| ViewManager.MovementCalls | ViewManager.cpp:180-207 | There is one movement call per held W/S/A/D/Q/E key, in that order, and none for a released key. Each call carries the current delta time. |
| ViewManager.KeyEdge | ViewManager.cpp:211-231 | A key fires iff it is down and its latch is clear. Afterwards the latch equals the key's state, so release re-arms it. |
| ViewManager.ProcessKeyboardEvents | ViewManager.cpp:171-232 | Close is requested iff escape is down, and the movement calls are as above. An O press edge gives orthographic, even when P also fires. A P press edge alone gives perspective. Otherwise the mode is unchanged. Only the mode and the two latches change. |
| ViewManager.HeldPerspectiveKeyIsInert | ViewManager.cpp:211-220 | While P stays held after its press was seen, with O released, the projection mode never changes, whatever it is. |
| ViewManager.HeldPerspectiveKeySwitchesOnce | ViewManager.cpp:211-220 | Pressing P from orthographic and holding it for any number of polls, with O released, switches the mode exactly once, to perspective. |
| ViewManager.KeyboardRun | ViewManager.cpp:211-231 | After each poll of a run, both latches equal that poll's P and O key states. Nothing but the mode and the latches changes. |
| ViewManager.ProjectionFor | ViewManager.cpp:259-270 | Orthographic is the box ±7.5 × ±6 with near 0.1 and far 100. Perspective uses the zoom as field of view, aspect 1.25, and the same near and far. |
| ViewManager.PrepareSceneView | ViewManager.cpp:241-282 | Delta = now - lastFrame, and lastFrame becomes now. The frame then makes exactly the keyboard poll: its mode, latches, close request and movement calls are those of `ProcessKeyboardEvents` run with the new delta. The cursor state is untouched. With a shader manager, view, projection and view position are uploaded from the camera as it stands after the poll, with the projection chosen by the mode after the poll. Only those three uniforms are uploaded. Without one, nothing is uploaded. |
| ViewManager.ViewUniforms | ViewManager.cpp:273-281 | After the three view uploads, view holds the camera's look-at, projection holds the chosen projection, and viewPosition holds the camera position. No other uniform is written. |
| ViewManager.OrthographicKeyEdgeSelectsBox | ViewManager.cpp:222-265 | A frame whose poll sees an O press edge uploads the ±7.5 × ±6 orthographic box, even when P also fires. |
| ViewManager.PerspectiveKeyEdgeSelectsZoom | ViewManager.cpp:211-270 | A frame whose poll sees a P press edge and no O press edge uploads a perspective with the camera's zoom. |
| ViewManager.InitialFrameIsPerspective | ViewManager.cpp:57-60 | The first frame, with no key held, makes no camera call and uploads an 80° perspective with aspect 1.25, near 0.1 and far 100. Its delta is the clock reading. |
| ViewManager.FrameRun | ViewManager.cpp:247-249 | Over a run of frames, the first delta is measured from the recorded last frame and each later delta from the previous clock reading. The last frame time ends at the final reading, and the camera at the final camera input. |
| ViewManager.FrameDeltasTelescope | ViewManager.cpp:247-249 | Over any run of frames, the delta times add up to the time elapsed since the recorded last frame. The last-frame time ends at the final clock reading. |

## Left out

- Floating point: all single-precision quantities are `real`, with no rounding. `AsSignedInt` is the only explicit width conversion.
- The narrowing from `double` to `float` is not modelled. It applies to the cursor positions stored in the globals (ViewManager.cpp:135-136, 145-146) and to the clock reading (ViewManager.cpp:247). So `ViewManager.InitialCursorEventIsStill` holds for the real-valued model. In the source, the first offset is x − (float)x, which is non-zero for a position that is not a `float` value.
- Image decoding and the OpenGL texture calls are not performed. The decoder's outcome and the name `glGenTextures` returns are inputs. The vertical-flip setting and freeing the pixel buffer have no observable effect in the model.
- File names are not modelled. The printed lines record the values they report, not the text.
- Array slots past the loaded count are not represented, because the code never reads them.
- The `Camera` class is opaque:
  - Its methods are returned as calls with their arguments. What they do (moving the position, yaw/pitch, zoom clamping) is not computed. Each frame takes the camera's fields after the poll as an input, and `PrepareSceneView` reads those.
  - `GetViewMatrix` is the symbolic `LookAt` of the camera vectors.
  - `MovementSpeed` is set at construction but never read by the view manager.
- Mouse_Wheel_Callback: left out, because it only forwards the scroll distance to the camera.
- The contents of the GLM matrices are not computed. Projections are identified by their parameters, and the perspective field of view stays in degrees (the code converts it to radians).
- ScenePush.ModelMatrixActsRightToLeft: point semantics are exact for quarter-turn angles only, because sine and cosine of other angles are not real-valued functions available here.
- GLFW windowing is not modelled: `CreateDisplayWindow`, callback registration, `glfwGetTime` and `glfwSetWindowShouldClose`. Time and key states are inputs; close is a returned flag.
- The constructors and destructors are not modelled separately. The scene manager's constructor starts from an empty table. Its destructor is `DestroyGLTextures`.
- The literal scene content is not modelled: `LoadSceneTextures`, `PrepareScene`, `SetupSceneLights` and `RenderScene` are fixed call sequences with no logic of their own.
- ScenePush.SetShaderMaterial: the null shader-manager dereference is not modelled as a crash. It becomes the precondition that a non-empty table needs a shader manager.

=== FILE: basics.dfy ===
/**
 Small value types shared by the scene and view managers: the 32-bit
 unsigned handle type, an Option, real-valued vectors standing in for the
 GLM single-precision vectors, the first-match linear scan that every tag
 lookup uses, and the console diagnostics the managers print.
 */
module Basics {

  /** `uint32_t` / `GLuint`. */
  newtype u32 = x: int | 0 <= x < 0x1_0000_0000

  datatype Option<+T> = None | Some(value: T)

  /** `glm::vec3`, with `real` components (no float rounding). */
  datatype Vec3 = Vec3(x: real, y: real, z: real) {
    function Plus(o: Vec3): (sum: Vec3) {
      Vec3(x + o.x, y + o.y, z + o.z)
    }
  }

  const ORIGIN: Vec3 := Vec3(0.0, 0.0, 0.0)

  /** A line written to standard output by the managers. */
  datatype Notice =
    | ImageLoaded(width: int, height: int, channels: int)
    | UnsupportedChannels(channels: int)
    | TableFull
    | ImageLoadFailed
    | TextureNotFound(tag: string)
    | MaterialNotFound(tag: string)

  /**
   The value a 32-bit `int` receives when it is assigned a `uint32_t`:
   the same bits read as two's complement (reduction modulo 2^32 into
   the signed range).
   */
  function AsSignedInt(h: u32): (r: int)
    ensures -0x8000_0000 <= r < 0x8000_0000
    ensures (r - h as int) % 0x1_0000_0000 == 0
    ensures r == -1 <==> h == 0xFFFF_FFFF
  {
    if h < 0x8000_0000 then h as int else h as int - 0x1_0000_0000
  }

  /**
   The flagged linear scan both tag lookups perform, started at `from`:
   the index of the first element at or after `from` satisfying `p`, or
   -1 when there is none.
   */
  function FirstMatchFrom<T>(s: seq<T>, p: T -> bool, from: nat): (k: int)
    requires from <= |s|
    ensures k == -1 || from <= k < |s|
    ensures k == -1 <==> forall i :: from <= i < |s| ==> !p(s[i])
    ensures k != -1 ==> p(s[k]) && forall i :: from <= i < k ==> !p(s[i])
    decreases |s| - from
  {
    if from == |s| then -1
    else if p(s[from]) then from
    else FirstMatchFrom(s, p, from + 1)
  }

  /** The index of the first element satisfying `p`, or the sentinel -1. */
  function FirstMatch<T>(s: seq<T>, p: T -> bool): (k: int)
    ensures -1 <= k < |s|
    ensures k == -1 <==> forall i :: 0 <= i < |s| ==> !p(s[i])
    ensures k != -1 ==> p(s[k]) && forall i :: 0 <= i < k ==> !p(s[i])
  {
    FirstMatchFrom(s, p, 0)
  }
}

=== FILE: materials.dfy ===
/**
 The scene manager's material table: an ordered, unbounded sequence of
 (diffuse, specular, shininess, tag) records, rebuilt wholesale from a
 fixed catalog and searched by tag with a first-match scan.
 */
module Materials {
  import opened Basics

  /** `OBJECT_MATERIAL`. */
  datatype Material = Material(diffuseColor: Vec3, specularColor: Vec3, shininess: real, tag: string)

  /** What `FindMaterial` returns, with the final contents of its out-parameter. */
  datatype Lookup = Lookup(returned: bool, material: Material)

  /** The index of the first material tagged `tag`, or -1. */
  function MaterialIndex(materials: seq<Material>, tag: string): (k: int)
    ensures -1 <= k < |materials|
    ensures k == -1 <==> forall i :: 0 <= i < |materials| ==> materials[i].tag != tag
    ensures k != -1 ==> materials[k].tag == tag && forall i :: 0 <= i < k ==> materials[i].tag != tag
  {
    FirstMatch(materials, (m: Material) => m.tag == tag)
  }

  /**
   `FindMaterial(tag, material)`, where `out` is what the out-parameter
   held on entry. Only an empty table makes it return false: a non-empty
   table returns true whether or not a tag matches. On a match the
   diffuse, specular and shininess fields are copied into the
   out-parameter (its tag is not); otherwise it is left untouched.
   */
  function FindMaterial(materials: seq<Material>, tag: string, out: Material): (r: Lookup)
    ensures r.returned <==> |materials| > 0
    ensures r.material.tag == out.tag
    ensures (forall i :: 0 <= i < |materials| ==> materials[i].tag != tag) ==> r.material == out
    ensures forall k :: 0 <= k < |materials| && materials[k].tag == tag
                        && (forall i :: 0 <= i < k ==> materials[i].tag != tag) ==>
              && r.material.diffuseColor == materials[k].diffuseColor
              && r.material.specularColor == materials[k].specularColor
              && r.material.shininess == materials[k].shininess
  {
    if |materials| == 0 then Lookup(false, out)
    else
      var k := MaterialIndex(materials, tag);
      if k == -1 then Lookup(true, out)
      else
        var m := materials[k];
        Lookup(true, out.(diffuseColor := m.diffuseColor, specularColor := m.specularColor,
                          shininess := m.shininess))
  }

  /** `FindMaterial`'s result says nothing about whether the tag matched. */
  lemma FindMaterialCannotReportMiss(materials: seq<Material>, tag: string, out: Material)
    requires |materials| > 0
    requires forall i :: 0 <= i < |materials| ==> materials[i].tag != tag
    ensures FindMaterial(materials, tag, out) == Lookup(true, out)
  {
  }

  /** The tags `DefineObjectMaterials` defines, in the order it defines them. */
  const CATALOG_TAGS: seq<string> :=
    ["plastic", "wood", "metal", "glass", "tile", "stone",
     "lampshade", "lampbase", "bookcover", "jar", "tableSurface", "windowFrame"]

  predicate UnitColor(c: Vec3)
  {
    0.0 <= c.x <= 1.0 && 0.0 <= c.y <= 1.0 && 0.0 <= c.z <= 1.0
  }

  /**
   `DefineObjectMaterials`: whatever the table held before (`prior`) is
   cleared and replaced by the twelve catalog materials.
   */
  function DefineObjectMaterials(prior: seq<Material>): (r: seq<Material>)
    ensures |r| == |CATALOG_TAGS| == 12
    ensures forall i :: 0 <= i < |r| ==> r[i].tag == CATALOG_TAGS[i]
    ensures forall i, j :: 0 <= i < j < |r| ==> r[i].tag != r[j].tag
    ensures forall i :: 0 <= i < |r| ==>
              UnitColor(r[i].diffuseColor) && UnitColor(r[i].specularColor) && r[i].shininess > 0.0
  {
    [ Material(Vec3(0.8, 0.4, 0.8), Vec3(0.2, 0.2, 0.2), 1.0, "plastic"),
      Material(Vec3(0.6, 0.5, 0.2), Vec3(0.1, 0.2, 0.2), 1.0, "wood"),
      Material(Vec3(0.3, 0.3, 0.2), Vec3(0.7, 0.7, 0.8), 8.0, "metal"),
      Material(Vec3(0.3, 0.3, 0.2), Vec3(0.9, 0.9, 0.8), 10.0, "glass"),
      Material(Vec3(0.5, 0.5, 0.5), Vec3(0.7, 0.7, 0.7), 6.0, "tile"),
      Material(Vec3(0.5, 0.5, 0.5), Vec3(0.73, 0.3, 0.3), 6.0, "stone"),
      Material(Vec3(1.0, 0.98, 0.88), Vec3(0.1, 0.1, 0.1), 0.5, "lampshade"),
      Material(Vec3(0.25, 0.15, 0.05), Vec3(0.2, 0.2, 0.1), 3.0, "lampbase"),
      Material(Vec3(0.4, 0.05, 0.05), Vec3(0.05, 0.05, 0.05), 0.8, "bookcover"),
      Material(Vec3(0.7, 0.7, 0.9), Vec3(0.3, 0.3, 0.4), 3.0, "jar"),
      Material(Vec3(0.4, 0.3, 0.2), Vec3(0.8, 0.8, 0.8), 30.0, "tableSurface"),
      Material(Vec3(0.9, 0.9, 0.9), Vec3(0.1, 0.1, 0.1), 1.0, "windowFrame") ]
  }

  /** Redefining the materials gives the same table as defining them once. */
  lemma DefineObjectMaterialsIdempotent(prior: seq<Material>)
    ensures DefineObjectMaterials(DefineObjectMaterials(prior)) == DefineObjectMaterials(prior)
  {
  }

  /**
   After `DefineObjectMaterials`, looking up any catalog tag yields
   exactly that entry's diffuse, specular and shininess values.
   */
  lemma CatalogLookupIsExact(prior: seq<Material>, i: int, out: Material)
    requires 0 <= i < 12
    ensures var table := DefineObjectMaterials(prior);
            var r := FindMaterial(table, CATALOG_TAGS[i], out);
            && r.returned
            && r.material.diffuseColor == table[i].diffuseColor
            && r.material.specularColor == table[i].specularColor
            && r.material.shininess == table[i].shininess
  {
    var table := DefineObjectMaterials(prior);
    assert table[i].tag == CATALOG_TAGS[i];
    assert forall j :: 0 <= j < i ==> table[j].tag != CATALOG_TAGS[i];
  }
}

=== FILE: scene_push.dfy ===
/**
 The scene manager's per-draw uniform pushes: color, texture, UV scale,
 material and model transform. Each push returns the uniform uploads it
 makes, in order, and the console notices it prints. `attached` says
 whether the scene manager holds a shader manager (`m_pShaderManager` is
 not null); every push but the material push checks it.
 */
module ScenePush {
  import opened Basics
  import opened Shader
  import opened Textures
  import opened Materials

  datatype Pushed = Pushed(uniforms: seq<UniformSet>, notices: seq<Notice>)

  /** `SetShaderColor`: texturing off and the flat color set. */
  function SetShaderColor(attached: bool, red: real, green: real, blue: real, alpha: real): (r: seq<UniformSet>)
    ensures !attached ==> r == []
    ensures attached ==> LastWrite(r, USE_TEXTURE_NAME) == Some(IntValue(0))
    ensures attached ==> LastWrite(r, COLOR_VALUE_NAME) == Some(Vec4Value(red, green, blue, alpha))
    ensures LastWrite(r, TEXTURE_VALUE_NAME) == None
    ensures forall k :: 0 <= k < |r| ==> r[k].name == USE_TEXTURE_NAME || r[k].name == COLOR_VALUE_NAME
  {
    if attached then
      [UniformSet(USE_TEXTURE_NAME, IntValue(0)),
       UniformSet(COLOR_VALUE_NAME, Vec4Value(red, green, blue, alpha))]
    else []
  }

  /**
   `SetShaderTexture`: texturing is switched on, then the tag is resolved
   to its slot. A resolved tag sets the sampler to the slot index; an
   unresolved one prints a warning and switches texturing back off.
   */
  function SetShaderTexture(attached: bool, reg: Registry, tag: string): (r: Pushed)
    ensures !attached ==> r == Pushed([], [])
    ensures attached ==> LastWrite(r.uniforms, USE_TEXTURE_NAME) ==
                           Some(IntValue(if SlotOf(reg, tag) != -1 then 1 else 0))
    ensures LastWrite(r.uniforms, TEXTURE_VALUE_NAME).Some? <==> attached && SlotOf(reg, tag) != -1
    ensures attached && SlotOf(reg, tag) != -1 ==>
              LastWrite(r.uniforms, TEXTURE_VALUE_NAME) == Some(Sampler2DValue(SlotOf(reg, tag)))
    ensures TextureNotFound(tag) in r.notices <==> attached && SlotOf(reg, tag) == -1
    ensures forall k :: 0 <= k < |r.uniforms| ==>
              r.uniforms[k].name == USE_TEXTURE_NAME || r.uniforms[k].name == TEXTURE_VALUE_NAME
    ensures forall n :: n in r.notices ==> n == TextureNotFound(tag)
    ensures r.notices == if attached && SlotOf(reg, tag) == -1 then [TextureNotFound(tag)] else []
  {
    if !attached then Pushed([], [])
    else
      var enable := UniformSet(USE_TEXTURE_NAME, IntValue(1));
      var slot := SlotOf(reg, tag);
      if slot != -1 then
        Pushed([enable, UniformSet(TEXTURE_VALUE_NAME, Sampler2DValue(slot))], [])
      else
        Pushed([enable, UniformSet(USE_TEXTURE_NAME, IntValue(0))], [TextureNotFound(tag)])
  }

  /**
   Over the texture table, the texture flag a draw sees after
   `SetShaderTexture` is on exactly when the tag is registered, and the
   sampler unit it sees is that tag's registration slot.
   */
  lemma SetShaderTextureAfterRegistration(reg: Registry, tag: string, decoded: Decoded, generated: Handle)
    requires decoded.Image? && (decoded.channels == 3 || decoded.channels == 4) && |reg| < MAX_TEXTURES
    requires SlotOf(reg, tag) == -1
    ensures var after := CreateGLTexture(reg, tag, decoded, generated).registry;
            var r := SetShaderTexture(true, after, tag);
            && LastWrite(r.uniforms, USE_TEXTURE_NAME) == Some(IntValue(1))
            && LastWrite(r.uniforms, TEXTURE_VALUE_NAME) == Some(Sampler2DValue(|reg|))
  {
    CreateKeepsSlots(reg, tag, decoded, generated, tag);
  }

  /** `SetTextureUVScale`: the tiling scale. */
  function SetTextureUVScale(attached: bool, u: real, v: real): (r: seq<UniformSet>)
    ensures !attached ==> r == []
    ensures attached ==> LastWrite(r, UV_SCALE_NAME) == Some(Vec2Value(u, v))
    ensures forall k :: 0 <= k < |r| ==> r[k].name == UV_SCALE_NAME
  {
    if attached then [UniformSet(UV_SCALE_NAME, Vec2Value(u, v))] else []
  }

  predicate MaterialName(name: string)
  {
    name == DIFFUSE_NAME || name == SPECULAR_NAME || name == SHININESS_NAME
  }

  /** The three material uploads, in source order. */
  function MaterialUniforms(m: Material): (r: seq<UniformSet>)
    ensures LastWrite(r, DIFFUSE_NAME) == Some(Vec3Value(m.diffuseColor))
    ensures LastWrite(r, SPECULAR_NAME) == Some(Vec3Value(m.specularColor))
    ensures LastWrite(r, SHININESS_NAME) == Some(FloatValue(m.shininess))
    ensures forall k :: 0 <= k < |r| ==> MaterialName(r[k].name)
  {
    var r := [UniformSet(DIFFUSE_NAME, Vec3Value(m.diffuseColor)),
              UniformSet(SPECULAR_NAME, Vec3Value(m.specularColor)),
              UniformSet(SHININESS_NAME, FloatValue(m.shininess))];
    assert |DIFFUSE_NAME| == 21 && |SPECULAR_NAME| == 22 && |SHININESS_NAME| == 18;
    assert r[0].name != r[1].name && r[0].name != r[2].name && r[1].name != r[2].name;
    r
  }

  /**
   `SetShaderMaterial`. `local` is the contents of the uninitialised
   `OBJECT_MATERIAL` the source declares before calling `FindMaterial`.
   The source dereferences the shader manager without checking it, so a
   non-empty table requires one. Because `FindMaterial` returns true on
   every non-empty table, the warning is never printed, and on a miss the
   uninitialised contents are pushed.
   */
  function SetShaderMaterial(attached: bool, materials: seq<Material>, tag: string, local: Material): (r: Pushed)
    requires |materials| > 0 ==> attached
    ensures MaterialNotFound(tag) !in r.notices
    ensures r.notices == []
    ensures forall k :: 0 <= k < |r.uniforms| ==> MaterialName(r.uniforms[k].name)
    ensures |materials| == 0 ==> r == Pushed([], [])
    ensures |materials| > 0 ==>
              var k := MaterialIndex(materials, tag);
              var source := if k == -1 then local else materials[k];
              && LastWrite(r.uniforms, DIFFUSE_NAME) == Some(Vec3Value(source.diffuseColor))
              && LastWrite(r.uniforms, SPECULAR_NAME) == Some(Vec3Value(source.specularColor))
              && LastWrite(r.uniforms, SHININESS_NAME) == Some(FloatValue(source.shininess))
  {
    if |materials| > 0 then
      var found := FindMaterial(materials, tag, local);
      if found.returned then Pushed(MaterialUniforms(found.material), [])
      else
        Pushed([], [MaterialNotFound(tag)])
    else
      Pushed([], [])
  }

  /**
   On a miss in a non-empty table the pushed material is not determined
   by the table and the tag: two different uninitialised locals push two
   different diffuse colors.
   */
  lemma SetShaderMaterialMissIsIndeterminate(materials: seq<Material>, tag: string, a: Material, b: Material)
    requires |materials| > 0
    requires forall i :: 0 <= i < |materials| ==> materials[i].tag != tag
    requires a.diffuseColor != b.diffuseColor
    ensures SetShaderMaterial(true, materials, tag, a).uniforms != SetShaderMaterial(true, materials, tag, b).uniforms
  {
    var ra := SetShaderMaterial(true, materials, tag, a).uniforms;
    var rb := SetShaderMaterial(true, materials, tag, b).uniforms;
    assert LastWrite(ra, DIFFUSE_NAME) != LastWrite(rb, DIFFUSE_NAME);
  }

  /** The model matrix `T(position + offset) · Rz · Ry · Rx · S`. */
  function ModelMatrix(scaleXYZ: Vec3, xDegrees: real, yDegrees: real, zDegrees: real,
                       positionXYZ: Vec3, offset: Vec3): (m: Matrix)
  {
    Product([Translate(positionXYZ.Plus(offset)), RotateZ(zDegrees), RotateY(yDegrees),
             RotateX(xDegrees), Scale(scaleXYZ)])
  }

  /** `SetTransformations`; `offset` defaults to the zero vector. */
  function SetTransformations(attached: bool, scaleXYZ: Vec3, xDegrees: real, yDegrees: real, zDegrees: real,
                              positionXYZ: Vec3, offset: Vec3 := ORIGIN): (r: seq<UniformSet>)
    ensures !attached ==> r == []
    ensures attached ==> r == [UniformSet(MODEL_NAME, Mat4Value(ModelMatrix(scaleXYZ, xDegrees, yDegrees, zDegrees,
                                                                            positionXYZ, offset)))]
  {
    if attached then
      [UniformSet(MODEL_NAME, Mat4Value(ModelMatrix(scaleXYZ, xDegrees, yDegrees, zDegrees, positionXYZ, offset)))]
    else []
  }

  /**
   The model matrix acts on a point by scaling, then rotating about X,
   then Y, then Z, then translating by position plus offset.
   */
  lemma ModelMatrixActsRightToLeft(scaleXYZ: Vec3, xDegrees: real, yDegrees: real, zDegrees: real,
                                   positionXYZ: Vec3, offset: Vec3, p: Vec3)
    requires IsQuarterTurn(xDegrees) && IsQuarterTurn(yDegrees) && IsQuarterTurn(zDegrees)
    ensures var m := ModelMatrix(scaleXYZ, xDegrees, yDegrees, zDegrees, positionXYZ, offset);
            var scaled := TransformPoint(Scale(scaleXYZ), p);
            var rotated := TransformPoint(RotateZ(zDegrees), TransformPoint(RotateY(yDegrees),
                             TransformPoint(RotateX(xDegrees), scaled)));
            ProductPoint(m.factors, p) == rotated.Plus(positionXYZ.Plus(offset))
  {
    var fs := ModelMatrix(scaleXYZ, xDegrees, yDegrees, zDegrees, positionXYZ, offset).factors;
    assert ProductPointFrom(fs, 4, p) == TransformPoint(Scale(scaleXYZ), p);
    assert ProductPointFrom(fs, 3, p) == TransformPoint(RotateX(xDegrees), ProductPointFrom(fs, 4, p));
    assert ProductPointFrom(fs, 2, p) == TransformPoint(RotateY(yDegrees), ProductPointFrom(fs, 3, p));
    assert ProductPointFrom(fs, 1, p) == TransformPoint(RotateZ(zDegrees), ProductPointFrom(fs, 2, p));
  }

  /**
   Without rotation the model matrix scales the point and then moves it
   by position plus offset.
   */
  lemma ModelMatrixWithoutRotation(scaleXYZ: Vec3, positionXYZ: Vec3, offset: Vec3, p: Vec3)
    ensures ProductPoint(ModelMatrix(scaleXYZ, 0.0, 0.0, 0.0, positionXYZ, offset).factors, p)
            == TransformPoint(Scale(scaleXYZ), p).Plus(positionXYZ.Plus(offset))
  {
    ModelMatrixActsRightToLeft(scaleXYZ, 0.0, 0.0, 0.0, positionXYZ, offset, p);
    var scaled := TransformPoint(Scale(scaleXYZ), p);
    assert TransformPoint(RotateX(0.0), scaled) == scaled;
    assert TransformPoint(RotateY(0.0), scaled) == scaled;
    assert TransformPoint(RotateZ(0.0), scaled) == scaled;
  }

  /** Omitting the offset makes the translation exactly the position. */
  lemma DefaultOffsetTranslatesToPosition(scaleXYZ: Vec3, xDegrees: real, yDegrees: real, zDegrees: real,
                                          positionXYZ: Vec3)
    ensures SetTransformations(true, scaleXYZ, xDegrees, yDegrees, zDegrees, positionXYZ)[0].value.m.factors[0]
            == Translate(positionXYZ)
  {
  }

  /**
   The rotations act X first, then Y: with quarter turns about X and Y,
   the scaled point (a, b, c) goes to (b, -c, -a) before translation.
   (Rotating about Y first would give (c, a, b).)
   */
  lemma RotationOrderIsXThenY(scaleXYZ: Vec3, positionXYZ: Vec3, offset: Vec3, p: Vec3)
    ensures var s := TransformPoint(Scale(scaleXYZ), p);
            ProductPoint(ModelMatrix(scaleXYZ, 90.0, 90.0, 0.0, positionXYZ, offset).factors, p)
            == Vec3(s.y, -s.z, -s.x).Plus(positionXYZ.Plus(offset))
  {
    ModelMatrixActsRightToLeft(scaleXYZ, 90.0, 90.0, 0.0, positionXYZ, offset, p);
    var s := TransformPoint(Scale(scaleXYZ), p);
    assert TransformPoint(RotateX(90.0), s) == Vec3(s.x, -s.z, s.y);
    assert TransformPoint(RotateY(90.0), Vec3(s.x, -s.z, s.y)) == Vec3(s.y, -s.z, -s.x);
  }

  /**
   A quarter turn about Y takes the scaled point (a, b, c) to (c, b, -a)
   before translation; so scale (2, 1, 1) and translation (1, 0, 0) take
   the local point (1, 0, 0) to (1, 0, -2).
   */
  lemma QuarterTurnAboutY(scaleXYZ: Vec3, positionXYZ: Vec3, offset: Vec3, p: Vec3)
    ensures var s := TransformPoint(Scale(scaleXYZ), p);
            ProductPoint(ModelMatrix(scaleXYZ, 0.0, 90.0, 0.0, positionXYZ, offset).factors, p)
            == Vec3(s.z, s.y, -s.x).Plus(positionXYZ.Plus(offset))
  {
    ModelMatrixActsRightToLeft(scaleXYZ, 0.0, 90.0, 0.0, positionXYZ, offset, p);
    var s := TransformPoint(Scale(scaleXYZ), p);
    assert TransformPoint(RotateX(0.0), s) == s;
  }
}

=== FILE: shader.dfy ===
/**
 The shader-program side of the managers, seen only through the uniform
 uploads they make: each upload is a (name, value) pair appended to a log,
 and the value a uniform holds after a sequence of uploads is the last one
 written under its name. Matrices are kept symbolic: a model matrix is the
 product of its factors, a view matrix records the camera vectors it is
 derived from, and a projection matrix records the parameters it is built
 from.
 */
module Shader {
  import opened Basics

  // Uniform names used by the scene and view managers.
  const MODEL_NAME: string := "model"
  const VIEW_NAME: string := "view"
  const PROJECTION_NAME: string := "projection"
  const VIEW_POSITION_NAME: string := "viewPosition"
  const COLOR_VALUE_NAME: string := "objectColor"
  const TEXTURE_VALUE_NAME: string := "objectTexture"
  const USE_TEXTURE_NAME: string := "bUseTexture"
  const UV_SCALE_NAME: string := "UVscale"
  const DIFFUSE_NAME: string := "material.diffuseColor"
  const SPECULAR_NAME: string := "material.specularColor"
  const SHININESS_NAME: string := "material.shininess"

  /** The parameters a `glm::ortho` or `glm::perspective` call receives. */
  datatype Projection =
    | Orthographic(left: real, right: real, bottom: real, top: real, near: real, far: real)
    | Perspective(fovDegrees: real, aspect: real, near: real, far: real)

  /** One factor of a model matrix, as built by `glm::scale`, `glm::rotate` and `glm::translate`. */
  datatype Transform =
    | Scale(factors: Vec3)
    | RotateX(degrees: real)
    | RotateY(degrees: real)
    | RotateZ(degrees: real)
    | Translate(offset: Vec3)

  datatype Matrix =
    | Product(factors: seq<Transform>)
    | LookAt(position: Vec3, front: Vec3, up: Vec3)
    | ProjectionMatrix(projection: Projection)

  datatype UniformValue =
    | IntValue(i: int)
    | FloatValue(f: real)
    | Vec2Value(u: real, v: real)
    | Vec3Value(v3: Vec3)
    | Vec4Value(r: real, g: real, b: real, a: real)
    | Sampler2DValue(unit: int)
    | Mat4Value(m: Matrix)

  /** One `ShaderManager::set…Value(name, value)` call. */
  datatype UniformSet = UniformSet(name: string, value: UniformValue)

  /** The value uniform `name` holds after the uploads in `log`, or None when `log` never writes it. */
  function LastWrite(log: seq<UniformSet>, name: string): (v: Option<UniformValue>)
    ensures v.None? <==> forall k :: 0 <= k < |log| ==> log[k].name != name
    ensures forall k :: 0 <= k < |log| && log[k].name == name && (forall j :: k < j < |log| ==> log[j].name != name)
                        ==> v == Some(log[k].value)
    decreases |log|
  {
    if log == [] then None
    else if log[|log| - 1].name == name then Some(log[|log| - 1].value)
    else LastWrite(log[..|log| - 1], name)
  }

  /** Rotation angles whose cosine and sine are exact: whole quarter turns. */
  predicate IsQuarterTurn(degrees: real)
  {
    degrees == 0.0 || degrees == 90.0 || degrees == 180.0 || degrees == -180.0 || degrees == 270.0 || degrees == -90.0
  }

  /** The number of counter-clockwise quarter turns, 0 to 3, a quarter-turn angle amounts to. */
  function QuarterTurns(degrees: real): (n: int)
    requires IsQuarterTurn(degrees)
    ensures 0 <= n < 4
  {
    if degrees == 0.0 then 0
    else if degrees == 90.0 then 1
    else if degrees == 180.0 || degrees == -180.0 then 2
    else 3
  }

  /** The coordinate pair (a, b) rotated counter-clockwise by n quarter turns in the a-b plane. */
  function TurnPair(a: real, b: real, n: int): (turned: (real, real))
  {
    if n == 1 then (-b, a)
    else if n == 2 then (-a, -b)
    else if n == 3 then (b, -a)
    else (a, b)
  }

  /** A factor whose action on points this model computes exactly. */
  predicate Exact(t: Transform)
  {
    match t
    case RotateX(deg) => IsQuarterTurn(deg)
    case RotateY(deg) => IsQuarterTurn(deg)
    case RotateZ(deg) => IsQuarterTurn(deg)
    case _ => true
  }

  /** The image of point `p` under one factor; rotations are right-handed. */
  function TransformPoint(t: Transform, p: Vec3): (image: Vec3)
    requires Exact(t)
  {
    match t
    case Scale(f) => Vec3(f.x * p.x, f.y * p.y, f.z * p.z)
    case Translate(d) => p.Plus(d)
    case RotateX(deg) =>
      var (y, z) := TurnPair(p.y, p.z, QuarterTurns(deg));
      Vec3(p.x, y, z)
    case RotateY(deg) =>
      var (z, x) := TurnPair(p.z, p.x, QuarterTurns(deg));
      Vec3(x, p.y, z)
    case RotateZ(deg) =>
      var (x, y) := TurnPair(p.x, p.y, QuarterTurns(deg));
      Vec3(x, y, p.z)
  }

  /** The image of `p` under the product of `factors[from..]`: the rightmost factor acts first. */
  function ProductPointFrom(factors: seq<Transform>, from: nat, p: Vec3): (image: Vec3)
    requires from <= |factors|
    requires forall i :: from <= i < |factors| ==> Exact(factors[i])
    decreases |factors| - from
  {
    if from == |factors| then p else TransformPoint(factors[from], ProductPointFrom(factors, from + 1, p))
  }

  /** The image of `p` under the matrix product `factors`. */
  function ProductPoint(factors: seq<Transform>, p: Vec3): (image: Vec3)
    requires forall i :: 0 <= i < |factors| ==> Exact(factors[i])
  {
    ProductPointFrom(factors, 0, p)
  }
}

=== FILE: textures.dfy ===
/**
 The scene manager's texture registry: a fixed-capacity table of
 (tag, OpenGL texture name) pairs whose occupied prefix is counted by
 `m_loadedTextures`. The slot index of an entry is also the texture unit
 it is bound to. Image decoding and the OpenGL calls are abstracted: the
 decoder's answer and the name `glGenTextures` hands out are inputs, and
 the OpenGL calls made are returned as a log.
 */
module Textures {
  import opened Basics

  /** Capacity of the texture table, one entry per guaranteed texture unit. */
  const MAX_TEXTURES: int := 16

  type Handle = u32

  /** `TEXTURE_INFO`. */
  datatype TextureInfo = TextureInfo(tag: string, id: Handle)

  /**
   The occupied prefix `m_textureIDs[0 .. m_loadedTextures)`. Array slots
   past the count are never read, so they are not represented.
   */
  type Registry = s: seq<TextureInfo> | |s| <= MAX_TEXTURES

  /** What `stbi_load` reports: failure, or the image's size and channel count. */
  datatype Decoded = DecodeFailed | Image(width: int, height: int, channels: int)

  datatype PixelFormat = RGB8 | RGBA8
  datatype TexParameter = WrapS | WrapT | MinFilter | MagFilter
  datatype TexParameterValue = Repeat | Linear

  /** The OpenGL texture calls the registry makes, in order. */
  datatype GlCall =
    | GenTexture(name: Handle)
    | BindTexture2D(name: Handle)
    | SetTexParameter(parameter: TexParameter, value: TexParameterValue)
    | TexImage2D(format: PixelFormat, width: int, height: int)
    | GenerateMipmap
    | ActiveTexture(unit: int)
    | DeleteTexture(name: Handle)

  datatype Created = Created(ok: bool, registry: Registry, calls: seq<GlCall>, notices: seq<Notice>)

  function Handles(reg: Registry): (names: set<Handle>)
  {
    set i | 0 <= i < |reg| :: reg[i].id
  }

  /**
   The first slot whose tag is `tag`, or -1. This is the specification
   both lookups of the registry are checked against.
   */
  function SlotOf(reg: Registry, tag: string): (slot: int)
    ensures -1 <= slot < |reg|
    ensures slot == -1 <==> forall i :: 0 <= i < |reg| ==> reg[i].tag != tag
    ensures slot != -1 ==> reg[slot].tag == tag && forall i :: 0 <= i < slot ==> reg[i].tag != tag
  {
    FirstMatch(reg, (e: TextureInfo) => e.tag == tag)
  }

  /**
   `CreateGLTexture`: `decoded` is what the image decoder returned for the
   file and `generated` the name `glGenTextures` produced. The texture is
   registered only when the image decoded, has 3 or 4 channels, and the
   table has room.
   */
  function CreateGLTexture(reg: Registry, tag: string, decoded: Decoded, generated: Handle): (r: Created)
    ensures r.ok <==> decoded.Image? && (decoded.channels == 3 || decoded.channels == 4) && |reg| < MAX_TEXTURES
    ensures r.ok ==> |r.registry| == |reg| + 1 && r.registry[..|reg|] == reg
                     && r.registry[|reg|] == TextureInfo(tag, generated)
    ensures !r.ok ==> r.registry == reg
    ensures GenTexture(generated) in r.calls <==> decoded.Image?
    ensures DeleteTexture(generated) in r.calls <==>
              decoded.Image? && (decoded.channels == 3 || decoded.channels == 4) && |reg| == MAX_TEXTURES
    ensures r.ok && decoded.channels == 3 ==> TexImage2D(RGB8, decoded.width, decoded.height) in r.calls
    ensures r.ok && decoded.channels == 4 ==> TexImage2D(RGBA8, decoded.width, decoded.height) in r.calls
    ensures decoded.DecodeFailed? ==> r.calls == [] && r.notices == [ImageLoadFailed]
    ensures decoded.Image? && decoded.channels != 3 && decoded.channels != 4 ==>
              UnsupportedChannels(decoded.channels) in r.notices
    ensures decoded.Image? && (decoded.channels == 3 || decoded.channels == 4) && |reg| == MAX_TEXTURES ==>
              TableFull in r.notices
    ensures TableFull in r.notices ==> |reg| == MAX_TEXTURES
    ensures r.ok ==> GenerateMipmap in r.calls && r.calls[|r.calls| - 1] == BindTexture2D(0)
    ensures forall c :: c in r.calls && c.DeleteTexture? ==> c.name == generated
    ensures forall c :: c in r.calls && c.SetTexParameter? ==>
              c.value == (if c.parameter == WrapS || c.parameter == WrapT then Repeat else Linear)
    ensures decoded.Image? ==>
              && SetTexParameter(WrapS, Repeat) in r.calls && SetTexParameter(WrapT, Repeat) in r.calls
              && SetTexParameter(MinFilter, Linear) in r.calls && SetTexParameter(MagFilter, Linear) in r.calls
  {
    match decoded
    case DecodeFailed =>
      Created(false, reg, [], [ImageLoadFailed])
    case Image(width, height, channels) =>
      var loaded := [ImageLoaded(width, height, channels)];
      var setup := [GenTexture(generated), BindTexture2D(generated),
                    SetTexParameter(WrapS, Repeat), SetTexParameter(WrapT, Repeat),
                    SetTexParameter(MinFilter, Linear), SetTexParameter(MagFilter, Linear)];
      if channels != 3 && channels != 4 then
        Created(false, reg, setup, loaded + [UnsupportedChannels(channels)])
      else
        var format := if channels == 3 then RGB8 else RGBA8;
        var uploaded := setup + [TexImage2D(format, width, height), GenerateMipmap, BindTexture2D(0)];
        if |reg| < MAX_TEXTURES then
          Created(true, reg + [TextureInfo(tag, generated)], uploaded, loaded)
        else
          Created(false, reg, uploaded + [DeleteTexture(generated)], loaded + [TableFull])
  }

  /**
   A texture name leaks when it was generated, never deleted, and is not
   held by the table afterwards.
   */
  predicate Leaks(calls: seq<GlCall>, after: Registry, name: Handle)
  {
    GenTexture(name) in calls && DeleteTexture(name) !in calls && name !in Handles(after)
  }

  /**
   Registration leaks the generated name exactly when the image has an
   unsupported channel count: that branch returns before the name is
   either stored or deleted. (`generated` is fresh, as `glGenTextures`
   guarantees.)
   */
  lemma CreateLeaksIffUnsupportedChannels(reg: Registry, tag: string, decoded: Decoded, generated: Handle)
    requires generated !in Handles(reg)
    ensures var r := CreateGLTexture(reg, tag, decoded, generated);
            Leaks(r.calls, r.registry, generated) <==>
              decoded.Image? && decoded.channels != 3 && decoded.channels != 4
  {
    var r := CreateGLTexture(reg, tag, decoded, generated);
    if r.ok {
      assert r.registry[|reg|].id == generated;
      assert generated in Handles(r.registry);
    }
  }

  /**
   A successful registration does not move any tag that was already
   registered, and makes a new tag resolve to the slot it was stored in.
   */
  lemma CreateKeepsSlots(reg: Registry, tag: string, decoded: Decoded, generated: Handle, t: string)
    requires decoded.Image? && (decoded.channels == 3 || decoded.channels == 4) && |reg| < MAX_TEXTURES
    ensures var after := CreateGLTexture(reg, tag, decoded, generated).registry;
            && (SlotOf(reg, t) != -1 ==> SlotOf(after, t) == SlotOf(reg, t))
            && (SlotOf(reg, t) == -1 && t == tag ==> SlotOf(after, t) == |reg|)
            && (SlotOf(reg, t) == -1 && t != tag ==> SlotOf(after, t) == -1)
  {
    var after := CreateGLTexture(reg, tag, decoded, generated).registry;
    assert forall i :: 0 <= i < |reg| ==> after[i] == reg[i];
  }

  /**
   `BindGLTextures`: for each occupied slot i, in order, activate texture
   unit i and bind the slot's texture to it.
   */
  method BindGLTextures(reg: Registry) returns (calls: seq<GlCall>)
    ensures |calls| == 2 * |reg|
    ensures forall i :: 0 <= i < |reg| ==>
              calls[2 * i] == ActiveTexture(i) && calls[2 * i + 1] == BindTexture2D(reg[i].id)
  {
    calls := [];
    for i := 0 to |reg|
      invariant |calls| == 2 * i
      invariant forall j :: 0 <= j < i ==>
                  calls[2 * j] == ActiveTexture(j) && calls[2 * j + 1] == BindTexture2D(reg[j].id)
    {
      calls := calls + [ActiveTexture(i), BindTexture2D(reg[i].id)];
    }
  }

  /** One `glDeleteTextures` per occupied slot, in slot order. */
  function DeleteCalls(reg: seq<TextureInfo>): (calls: seq<GlCall>)
    ensures |calls| == |reg|
    ensures forall i :: 0 <= i < |reg| ==> calls[i] == DeleteTexture(reg[i].id)
  {
    if reg == [] then [] else [DeleteTexture(reg[0].id)] + DeleteCalls(reg[1..])
  }

  datatype Destroyed = Destroyed(registry: Registry, calls: seq<GlCall>)

  /** `DestroyGLTextures`: delete every registered texture and empty the table. */
  function DestroyGLTextures(reg: Registry): (r: Destroyed)
    ensures r.registry == []
    ensures r.calls == DeleteCalls(reg)
    ensures forall c :: c in r.calls ==> c.DeleteTexture? && c.name in Handles(reg)
    ensures forall h :: h in Handles(reg) ==> DeleteTexture(h) in r.calls
    ensures forall t :: SlotOf(r.registry, t) == -1
  {
    var calls := DeleteCalls(reg);
    assert forall h :: h in Handles(reg) ==> DeleteTexture(h) in calls by {
      forall h | h in Handles(reg) ensures DeleteTexture(h) in calls {
        var i :| 0 <= i < |reg| && reg[i].id == h;
        assert calls[i] == DeleteTexture(h);
      }
    }
    Destroyed([], calls)
  }

  /** Releasing twice is harmless: the second call deletes nothing. */
  lemma DestroyTwiceDeletesNothing(reg: Registry)
    ensures DestroyGLTextures(DestroyGLTextures(reg).registry) == Destroyed([], [])
  {
  }

  /**
   `FindTextureSlot`, as the source's flagged loop: the first slot whose
   tag matches, or -1.
   */
  method FindTextureSlot(reg: Registry, tag: string) returns (slot: int)
    ensures -1 <= slot < |reg| && slot < MAX_TEXTURES
    ensures slot == -1 <==> forall i :: 0 <= i < |reg| ==> reg[i].tag != tag
    ensures slot != -1 ==> reg[slot].tag == tag && forall i :: 0 <= i < slot ==> reg[i].tag != tag
    ensures slot == SlotOf(reg, tag)
  {
    slot := -1;
    var index := 0;
    var found := false;
    while index < |reg| && !found
      invariant 0 <= index <= |reg|
      invariant forall i :: 0 <= i < index ==> reg[i].tag != tag
      invariant found ==> index < |reg| && reg[index].tag == tag && slot == index
      invariant !found ==> slot == -1
      decreases |reg| - index + (if found then 0 else 1)
    {
      if reg[index].tag == tag {
        slot := index;
        found := true;
      } else {
        index := index + 1;
      }
    }
  }

  /**
   `FindTextureID`: the name stored at the first matching slot, converted
   to a signed `int`, or -1. A stored name of 0xFFFFFFFF is therefore
   indistinguishable from a miss.
   */
  method FindTextureID(reg: Registry, tag: string) returns (id: int)
    ensures SlotOf(reg, tag) == -1 ==> id == -1
    ensures SlotOf(reg, tag) != -1 ==> id == AsSignedInt(reg[SlotOf(reg, tag)].id)
    ensures id == -1 <==> SlotOf(reg, tag) == -1 || reg[SlotOf(reg, tag)].id == 0xFFFF_FFFF
  {
    id := -1;
    var index := 0;
    var found := false;
    while index < |reg| && !found
      invariant 0 <= index <= |reg|
      invariant forall i :: 0 <= i < index ==> reg[i].tag != tag
      invariant found ==> index < |reg| && reg[index].tag == tag && id == AsSignedInt(reg[index].id)
      invariant !found ==> id == -1
      decreases |reg| - index + (if found then 0 else 1)
    {
      if reg[index].tag == tag {
        id := AsSignedInt(reg[index].id);
        found := true;
      } else {
        index := index + 1;
      }
    }
  }
}

=== FILE: view_manager.dfy ===
/**
 The view manager: the process-wide mouse, timing and projection state
 kept in the view manager's anonymous namespace (plus the two key latches
 held in function-local statics), stepped by the cursor callback, the
 keyboard poll and the per-frame view preparation. The camera class is
 opaque: the calls made into it are returned with their arguments, and the
 camera fields the view manager sets and reads are kept as a record.
 Key states and the clock are inputs.
 */
module ViewManager {
  import opened Basics
  import opened Shader

  const WINDOW_WIDTH: int := 1000
  const WINDOW_HEIGHT: int := 800
  /** Half-height of the orthographic view volume. */
  const ORTHO_SCALE: real := 6.0
  const NEAR_PLANE: real := 0.1
  const FAR_PLANE: real := 100.0

  datatype CameraMovement = Forward | Backward | Left | Right | Up | Down

  /** A call into the camera class; what it does to the camera is not modelled. */
  datatype CameraCall =
    | ProcessKeyboard(direction: CameraMovement, deltaTime: real)
    | ProcessMouseMovement(xOffset: real, yOffset: real)

  /**
   The camera fields the view manager writes at construction and reads
   each frame. The camera's own methods change them in ways not modelled,
   so each frame takes their new values as an input.
   */
  datatype Camera = Camera(position: Vec3, front: Vec3, up: Vec3, zoom: real, movementSpeed: real)

  /**
   `lastX`/`lastY`/`firstMouse`, `deltaTime`/`lastFrame` and
   `orthographic` are the namespace globals; `pLatch` and `oLatch` are the
   statics `p_pressed` and `o_pressed`; `attached` says whether the view
   manager holds a shader manager.
   */
  datatype ViewState = ViewState(
    camera: Camera,
    lastX: real, lastY: real, firstMouse: bool,
    deltaTime: real, lastFrame: real,
    orthographic: bool,
    pLatch: bool, oLatch: bool,
    attached: bool)

  /** Which keys `glfwGetKey` reports pressed this poll. */
  datatype Keys = Keys(escape: bool, w: bool, s: bool, a: bool, d: bool, q: bool, e: bool, p: bool, o: bool)

  const NO_KEYS: Keys := Keys(false, false, false, false, false, false, false, false, false)

  /**
   The globals as initialised, and the camera as the constructor sets it
   up: the last cursor position starts at the window's centre.
   */
  function InitialView(attached: bool): (v: ViewState)
    ensures v.lastX == 500.0 && v.lastY == 400.0 && v.firstMouse
    ensures !v.orthographic && v.deltaTime == 0.0 && v.lastFrame == 0.0
    ensures !v.pLatch && !v.oLatch
    ensures v.camera.zoom == 80.0 && v.camera.movementSpeed == 20.0
    ensures v.camera.position == Vec3(0.0, 5.0, 12.0)
    ensures v.camera.front == Vec3(0.0, -0.5, -2.0) && v.camera.up == Vec3(0.0, 1.0, 0.0)
    ensures v.attached == attached
  {
    ViewState(Camera(Vec3(0.0, 5.0, 12.0), Vec3(0.0, -0.5, -2.0), Vec3(0.0, 1.0, 0.0), 80.0, 20.0),
              WINDOW_WIDTH as real / 2.0, WINDOW_HEIGHT as real / 2.0, true,
              0.0, 0.0, false, false, false, attached)
  }

  // ---------------------------------------------------------------------------
  // Mouse

  datatype MouseStep = MouseStep(state: ViewState, call: CameraCall)

  /**
   `Mouse_Position_Callback`: the first event seeds the last position, so
   its offsets are zero; every event reports x - lastX and lastY - y (screen
   y grows downwards) and then records (x, y).
   */
  function MousePositionCallback(v: ViewState, x: real, y: real): (r: MouseStep)
    ensures r.state == v.(lastX := x, lastY := y, firstMouse := false)
    ensures v.firstMouse ==> r.call == ProcessMouseMovement(0.0, 0.0)
    ensures !v.firstMouse ==> r.call == ProcessMouseMovement(x - v.lastX, v.lastY - y)
  {
    var seeded := if v.firstMouse then v.(lastX := x, lastY := y, firstMouse := false) else v;
    var xOffset := x - seeded.lastX;
    var yOffset := seeded.lastY - y;
    MouseStep(seeded.(lastX := x, lastY := y), ProcessMouseMovement(xOffset, yOffset))
  }

  datatype Cursor = Cursor(x: real, y: real)
  datatype MouseTrace = MouseTrace(state: ViewState, calls: seq<CameraCall>)

  /** A sequence of cursor events, delivered in order. */
  function MouseRun(v: ViewState, events: seq<Cursor>): (r: MouseTrace)
    ensures |r.calls| == |events|
    ensures forall c :: c in r.calls ==> c.ProcessMouseMovement?
    ensures r.state.camera == v.camera && r.state.orthographic == v.orthographic
    ensures |events| > 0 ==> !r.state.firstMouse
                             && r.state.lastX == events[|events| - 1].x && r.state.lastY == events[|events| - 1].y
    decreases |events|
  {
    if events == [] then MouseTrace(v, [])
    else
      var step := MousePositionCallback(v, events[0].x, events[0].y);
      var rest := MouseRun(step.state, events[1..]);
      MouseTrace(rest.state, [step.call] + rest.calls)
  }

  function SumXOffsets(calls: seq<CameraCall>): (total: real)
  {
    if calls == [] then 0.0
    else (if calls[0].ProcessMouseMovement? then calls[0].xOffset else 0.0) + SumXOffsets(calls[1..])
  }

  function SumYOffsets(calls: seq<CameraCall>): (total: real)
  {
    if calls == [] then 0.0
    else (if calls[0].ProcessMouseMovement? then calls[0].yOffset else 0.0) + SumYOffsets(calls[1..])
  }

  /**
   The offsets the camera receives over a run of cursor events add up to
   the total cursor travel, measured from the first event when the first
   event seeds the position and from the recorded last position otherwise;
   and once an event has been seen the first-mouse flag is off for good.
   */
  lemma {:induction false} MouseOffsetsTelescope(v: ViewState, events: seq<Cursor>)
    requires |events| > 0
    ensures var r := MouseRun(v, events);
            var start := if v.firstMouse then events[0] else Cursor(v.lastX, v.lastY);
            && SumXOffsets(r.calls) == events[|events| - 1].x - start.x
            && SumYOffsets(r.calls) == start.y - events[|events| - 1].y
            && !r.state.firstMouse
            && r.state.lastX == events[|events| - 1].x && r.state.lastY == events[|events| - 1].y
    decreases |events|
  {
    var step := MousePositionCallback(v, events[0].x, events[0].y);
    if |events| > 1 {
      MouseOffsetsTelescope(step.state, events[1..]);
    }
  }

  /** From the initial state, the first cursor event moves the camera by nothing, wherever it is. */
  lemma InitialCursorEventIsStill(attached: bool, x: real, y: real)
    ensures MousePositionCallback(InitialView(attached), x, y).call == ProcessMouseMovement(0.0, 0.0)
  {
  }

  /**
   From the initial state, a second event 10 to the right of and 5 above
   the first turns the camera by +10 horizontally and +5 vertically.
   */
  lemma SecondCursorEvent(attached: bool, x: real, y: real)
    ensures var first := MousePositionCallback(InitialView(attached), x, y);
            MousePositionCallback(first.state, x + 10.0, y - 5.0).call == ProcessMouseMovement(10.0, 5.0)
  {
  }

  // ---------------------------------------------------------------------------
  // Keyboard

  /** The movement keys W, S, A, D, Q, E, in the order they are polled. */
  const POLL_ORDER: seq<CameraMovement> := [Forward, Backward, Left, Right, Up, Down]

  /** A movement's position in `POLL_ORDER`. */
  function Rank(m: CameraMovement): (n: int)
    ensures 0 <= n < |POLL_ORDER| && POLL_ORDER[n] == m
  {
    match m
    case Forward => 0
    case Backward => 1
    case Left => 2
    case Right => 3
    case Up => 4
    case Down => 5
  }

  /** Whether the key bound to movement `m` is held. */
  predicate Held(keys: Keys, m: CameraMovement)
  {
    match m
    case Forward => keys.w
    case Backward => keys.s
    case Left => keys.a
    case Right => keys.d
    case Up => keys.q
    case Down => keys.e
  }

  /** The camera calls for the movement keys polled from position `from` on. */
  function MovementCallsFrom(keys: Keys, deltaTime: real, from: nat): (calls: seq<CameraCall>)
    requires from <= |POLL_ORDER|
    ensures forall c :: c in calls ==>
              c.ProcessKeyboard? && c.deltaTime == deltaTime && Rank(c.direction) >= from && Held(keys, c.direction)
    ensures forall m :: Rank(m) >= from && Held(keys, m) ==> ProcessKeyboard(m, deltaTime) in calls
    ensures forall i, j :: 0 <= i < j < |calls| ==>
              calls[i].ProcessKeyboard? && calls[j].ProcessKeyboard? && Rank(calls[i].direction) < Rank(calls[j].direction)
    decreases |POLL_ORDER| - from
  {
    if from == |POLL_ORDER| then []
    else
      var m := POLL_ORDER[from];
      var rest := MovementCallsFrom(keys, deltaTime, from + 1);
      if Held(keys, m) then [ProcessKeyboard(m, deltaTime)] + rest else rest
  }

  /**
   One camera call per held movement key, in polling order, each carrying
   `deltaTime`; no call for a key that is up.
   */
  function MovementCalls(keys: Keys, deltaTime: real): (calls: seq<CameraCall>)
    ensures forall c :: c in calls ==> c.ProcessKeyboard? && c.deltaTime == deltaTime
    ensures forall m :: ProcessKeyboard(m, deltaTime) in calls <==> Held(keys, m)
    ensures forall i, j :: 0 <= i < j < |calls| ==>
              calls[i].ProcessKeyboard? && calls[j].ProcessKeyboard? && Rank(calls[i].direction) < Rank(calls[j].direction)
  {
    MovementCallsFrom(keys, deltaTime, 0)
  }

  datatype Edge = Edge(fired: bool, latch: bool)

  /**
   The press-edge test for one key: fire when the key is down and the
   latch is clear, clear the latch when the key is up. Whatever happens,
   the latch ends up equal to the key's state, so it fires exactly on a
   released-to-pressed transition.
   */
  function KeyEdge(down: bool, latch: bool): (r: Edge)
    ensures r.fired <==> down && !latch
    ensures r.latch == down
  {
    if down && !latch then Edge(true, true)
    else if !down then Edge(false, false)
    else Edge(false, latch)
  }

  datatype KeyboardStep = KeyboardStep(state: ViewState, closeRequested: bool, calls: seq<CameraCall>)

  /**
   `ProcessKeyboardEvents`: escape requests closing; each held movement
   key forwards the current delta time to the camera; a P press edge
   selects perspective and an O press edge selects orthographic (O is
   handled second, so it wins when both fire). Nothing else changes.
   */
  function ProcessKeyboardEvents(v: ViewState, keys: Keys): (r: KeyboardStep)
    ensures r.closeRequested <==> keys.escape
    ensures r.calls == MovementCalls(keys, v.deltaTime)
    ensures r.state == v.(orthographic := r.state.orthographic, pLatch := keys.p, oLatch := keys.o)
    ensures keys.o && !v.oLatch ==> r.state.orthographic
    ensures keys.p && !v.pLatch && !(keys.o && !v.oLatch) ==> !r.state.orthographic
    ensures !(keys.p && !v.pLatch) && !(keys.o && !v.oLatch) ==> r.state.orthographic == v.orthographic
  {
    var p := KeyEdge(keys.p, v.pLatch);
    var o := KeyEdge(keys.o, v.oLatch);
    var afterP := if p.fired then false else v.orthographic;
    var afterO := if o.fired then true else afterP;
    KeyboardStep(v.(orthographic := afterO, pLatch := p.latch, oLatch := o.latch),
                 keys.escape, MovementCalls(keys, v.deltaTime))
  }

  /** The states after each poll of a sequence of keyboard polls. */
  function KeyboardRun(v: ViewState, polls: seq<Keys>): (states: seq<ViewState>)
    ensures |states| == |polls|
    ensures forall i :: 0 <= i < |polls| ==> states[i].pLatch == polls[i].p && states[i].oLatch == polls[i].o
    ensures forall i :: 0 <= i < |polls| ==>
              states[i] == v.(orthographic := states[i].orthographic, pLatch := polls[i].p, oLatch := polls[i].o)
    decreases |polls|
  {
    if polls == [] then []
    else
      var next := ProcessKeyboardEvents(v, polls[0]).state;
      [next] + KeyboardRun(next, polls[1..])
  }

  /** How many times the projection mode differs from the one before it. */
  function ModeChanges(before: bool, states: seq<ViewState>): (changes: nat)
    decreases |states|
  {
    if states == [] then 0
    else (if states[0].orthographic != before then 1 else 0) + ModeChanges(states[0].orthographic, states[1..])
  }

  predicate HoldsOnlyP(polls: seq<Keys>)
  {
    forall i :: 0 <= i < |polls| ==> polls[i].p && !polls[i].o
  }

  /**
   While P stays held after its press was seen, it does nothing: the
   projection mode stays whatever it was, orthographic included.
   */
  lemma {:induction false} HeldPerspectiveKeyIsInert(v: ViewState, polls: seq<Keys>)
    requires v.pLatch && HoldsOnlyP(polls)
    ensures forall i :: 0 <= i < |polls| ==> KeyboardRun(v, polls)[i].orthographic == v.orthographic
    ensures ModeChanges(v.orthographic, KeyboardRun(v, polls)) == 0
    decreases |polls|
  {
    if polls != [] {
      var next := ProcessKeyboardEvents(v, polls[0]).state;
      assert HoldsOnlyP(polls[1..]) by {
        forall i | 0 <= i < |polls[1..]| ensures polls[1..][i].p && !polls[1..][i].o {
          assert polls[1..][i] == polls[i + 1];
        }
      }
      HeldPerspectiveKeyIsInert(next, polls[1..]);
    }
  }

  /**
   Pressing P from orthographic mode and holding it for any number of
   polls switches the mode exactly once.
   */
  lemma HeldPerspectiveKeySwitchesOnce(v: ViewState, polls: seq<Keys>)
    requires !v.pLatch && v.orthographic && HoldsOnlyP(polls) && |polls| > 0
    ensures ModeChanges(true, KeyboardRun(v, polls)) == 1
    ensures !KeyboardRun(v, polls)[|polls| - 1].orthographic
  {
    var next := ProcessKeyboardEvents(v, polls[0]).state;
    assert HoldsOnlyP(polls[1..]) by {
      forall i | 0 <= i < |polls[1..]| ensures polls[1..][i].p && !polls[1..][i].o {
        assert polls[1..][i] == polls[i + 1];
      }
    }
    HeldPerspectiveKeyIsInert(next, polls[1..]);
  }

  // ---------------------------------------------------------------------------
  // Frame

  function Aspect(): (ratio: real)
  {
    WINDOW_WIDTH as real / WINDOW_HEIGHT as real
  }

  /**
   The projection `PrepareSceneView` builds: an orthographic volume of
   half-height 6 widened by the window's aspect ratio, or a perspective
   with the camera's zoom as field of view (in degrees, converted to
   radians by the source); the same near and far planes either way.
   */
  function ProjectionFor(orthographic: bool, zoom: real): (p: Projection)
    ensures orthographic ==> p == Orthographic(-7.5, 7.5, -6.0, 6.0, 0.1, 100.0)
    ensures !orthographic ==> p == Perspective(zoom, 1.25, 0.1, 100.0)
  {
    if orthographic then
      Orthographic(-ORTHO_SCALE * Aspect(), ORTHO_SCALE * Aspect(), -ORTHO_SCALE, ORTHO_SCALE, NEAR_PLANE, FAR_PLANE)
    else
      Perspective(zoom, Aspect(), NEAR_PLANE, FAR_PLANE)
  }

  /** The uniforms a frame uploads. */
  predicate ViewName(name: string)
  {
    name == VIEW_NAME || name == PROJECTION_NAME || name == VIEW_POSITION_NAME
  }

  /** The three uploads that close `PrepareSceneView`. */
  function ViewUniforms(cam: Camera, projection: Projection): (r: seq<UniformSet>)
    ensures forall k :: 0 <= k < |r| ==> ViewName(r[k].name)
    ensures LastWrite(r, VIEW_NAME) == Some(Mat4Value(LookAt(cam.position, cam.front, cam.up)))
    ensures LastWrite(r, PROJECTION_NAME) == Some(Mat4Value(ProjectionMatrix(projection)))
    ensures LastWrite(r, VIEW_POSITION_NAME) == Some(Vec3Value(cam.position))
  {
    var r := [UniformSet(VIEW_NAME, Mat4Value(LookAt(cam.position, cam.front, cam.up))),
              UniformSet(PROJECTION_NAME, Mat4Value(ProjectionMatrix(projection))),
              UniformSet(VIEW_POSITION_NAME, Vec3Value(cam.position))];
    assert |VIEW_NAME| == 4 && |PROJECTION_NAME| == 10 && |VIEW_POSITION_NAME| == 12;
    assert r[0].name != r[1].name && r[0].name != r[2].name && r[1].name != r[2].name;
    r
  }

  datatype Frame = Frame(state: ViewState, closeRequested: bool, calls: seq<CameraCall>, uniforms: seq<UniformSet>)

  /**
   `PrepareSceneView` at clock reading `now`: frame timing is updated
   first, then the keyboard is polled (so movement uses this frame's delta
   time), then view, projection and camera position are uploaded when a
   shader manager is attached. The camera class is opaque, so `moved` is
   what its fields hold once this frame's movement calls have been made;
   the uploads read the camera after the poll, as the source does.
   */
  function PrepareSceneView(v: ViewState, now: real, keys: Keys, moved: Camera): (r: Frame)
    ensures var polled := ProcessKeyboardEvents(v.(deltaTime := now - v.lastFrame, lastFrame := now), keys);
            && r.state == polled.state.(camera := moved)
            && r.calls == polled.calls
            && r.closeRequested == polled.closeRequested
    ensures r.state.deltaTime == now - v.lastFrame && r.state.lastFrame == now
    ensures forall c :: c in r.calls ==> c.ProcessKeyboard? && c.deltaTime == now - v.lastFrame
    ensures r.closeRequested <==> keys.escape
    ensures r.state.lastX == v.lastX && r.state.lastY == v.lastY && r.state.firstMouse == v.firstMouse
    ensures !v.attached ==> r.uniforms == []
    ensures forall k :: 0 <= k < |r.uniforms| ==> ViewName(r.uniforms[k].name)
    ensures v.attached ==>
              && LastWrite(r.uniforms, VIEW_NAME) == Some(Mat4Value(LookAt(moved.position, moved.front, moved.up)))
              && LastWrite(r.uniforms, PROJECTION_NAME)
                 == Some(Mat4Value(ProjectionMatrix(ProjectionFor(r.state.orthographic, moved.zoom))))
              && LastWrite(r.uniforms, VIEW_POSITION_NAME) == Some(Vec3Value(moved.position))
  {
    var timed := v.(deltaTime := now - v.lastFrame, lastFrame := now);
    var polled := ProcessKeyboardEvents(timed, keys);
    var projection := ProjectionFor(polled.state.orthographic, moved.zoom);
    var uniforms := if v.attached then ViewUniforms(moved, projection) else [];
    Frame(polled.state.(camera := moved), polled.closeRequested, polled.calls, uniforms)
  }

  /**
   An O press edge makes the frame upload the orthographic box, even when
   P is pressed in the same poll.
   */
  lemma OrthographicKeyEdgeSelectsBox(v: ViewState, now: real, keys: Keys, moved: Camera)
    requires v.attached && keys.o && !v.oLatch
    ensures LastWrite(PrepareSceneView(v, now, keys, moved).uniforms, PROJECTION_NAME)
            == Some(Mat4Value(ProjectionMatrix(Orthographic(-7.5, 7.5, -6.0, 6.0, 0.1, 100.0))))
  {
  }

  /**
   A P press edge without an O press edge makes the frame upload a
   perspective with the camera's current zoom.
   */
  lemma PerspectiveKeyEdgeSelectsZoom(v: ViewState, now: real, keys: Keys, moved: Camera)
    requires v.attached && keys.p && !v.pLatch && !(keys.o && !v.oLatch)
    ensures LastWrite(PrepareSceneView(v, now, keys, moved).uniforms, PROJECTION_NAME)
            == Some(Mat4Value(ProjectionMatrix(Perspective(moved.zoom, 1.25, 0.1, 100.0))))
  {
  }

  /**
   The first frame after construction, with no key held, makes no camera
   call, so the camera keeps its constructed fields and the frame uses an
   80-degree perspective.
   */
  lemma InitialFrameIsPerspective(now: real)
    ensures var v := InitialView(true);
            var r := PrepareSceneView(v, now, NO_KEYS, v.camera);
            && r.calls == []
            && r.state.deltaTime == now
            && LastWrite(r.uniforms, PROJECTION_NAME) == Some(Mat4Value(ProjectionMatrix(Perspective(80.0, 1.25, 0.1, 100.0))))
  {
    var v := InitialView(true);
    assert forall m :: !Held(NO_KEYS, m);
  }

  datatype FrameTrace = FrameTrace(state: ViewState, deltas: seq<real>)

  /**
   A sequence of frames at the given clock readings, with the given keys
   held and the camera answering with the given fields.
   */
  function FrameRun(v: ViewState, times: seq<real>, keys: seq<Keys>, cameras: seq<Camera>): (r: FrameTrace)
    requires |times| == |keys| == |cameras|
    ensures |r.deltas| == |times|
    ensures |times| > 0 ==> r.state.lastFrame == times[|times| - 1] && r.state.camera == cameras[|cameras| - 1]
    ensures |times| > 0 ==> r.deltas[0] == times[0] - v.lastFrame
    ensures forall i :: 0 < i < |times| ==> r.deltas[i] == times[i] - times[i - 1]
    decreases |times|
  {
    if times == [] then FrameTrace(v, [])
    else
      var frame := PrepareSceneView(v, times[0], keys[0], cameras[0]);
      var rest := FrameRun(frame.state, times[1..], keys[1..], cameras[1..]);
      FrameTrace(rest.state, [frame.state.deltaTime] + rest.deltas)
  }

  function Sum(xs: seq<real>): (total: real)
  {
    if xs == [] then 0.0 else xs[0] + Sum(xs[1..])
  }

  /**
   Frame delta times add up to the time elapsed since the recorded last
   frame, and the last frame time ends at the final clock reading.
   */
  lemma {:induction false} FrameDeltasTelescope(v: ViewState, times: seq<real>, keys: seq<Keys>, cameras: seq<Camera>)
    requires |times| == |keys| == |cameras| && |times| > 0
    ensures var r := FrameRun(v, times, keys, cameras);
            Sum(r.deltas) == times[|times| - 1] - v.lastFrame && r.state.lastFrame == times[|times| - 1]
    decreases |times|
  {
    var frame := PrepareSceneView(v, times[0], keys[0], cameras[0]);
    if |times| > 1 {
      FrameDeltasTelescope(frame.state, times[1..], keys[1..], cameras[1..]);
    }
  }
}
